=== FILE: README.md ===
# Auction lifecycle model

A Dafny model of the auction repository of an auction service written in Go
(`internal/infra/database/auction/create_auction.go`). The repository stores
auction documents in a MongoDB collection, lets callers create an auction and
set its status, and runs a background job that periodically closes every
active auction whose active window has lapsed.

The model replaces the collection with a finite map from `_id` to document
(`AuctionRepository.Store`, a map whose every key is the id of the document
stored under it) and every driver call with an operation on that map:

- `AuctionRepository.CreateAuction` copies a domain auction into a document
  field by field, truncating its timestamp to whole Unix seconds, and stores
  it without validating the status.
- `AuctionRepository.UpdateAuctionStatus` sets the status field of the one
  document with the given id, whatever its current status; a missing id
  matches nothing and is not an error.
- `AuctionRepository.GetAuctionInterval` reads `AUCTION_INTERVAL` (an unset
  variable reads as the empty string) and returns the parsed duration, or
  five minutes when parsing fails. The parser is a parameter returning an
  `Option`.
- `AuctionClosing.CheckAndCloseExpiredAuctions` is one sweep: the cutoff is
  `now - interval` in whole Unix seconds, the find step selects the documents
  with status Active and timestamp strictly below the cutoff, and each one
  found is closed through the status update, in whatever order the cursor
  yields them. A rejected update is skipped; a failed find or decode step
  changes nothing. The sweep also returns the ids it logs as closed
  automatically. `AuctionClosing.Sweep` states the same sweep over the
  whole collection at once, and the method is proved equal to it.

Times are integers: `now`, the window and the domain timestamp are
nanoseconds (as `time.Time` and `time.Duration` hold them), stored
timestamps and the cutoff are seconds, and the conversion is floor division
by 10^9 (`time.Time.Unix` rounds towards negative infinity). Driver outcomes
are inputs: a flag for the insert and for a single update, a `FindOutcome`
for the find-and-decode step, and the set of ids whose update the driver
rejects during a sweep.

The code does not keep the documented rule that a status only ever moves
from Active to Completed: the status update writes whatever status it is
given, so a completed auction can be reopened (`UpdateReopens`). The model
follows the code. The sweep itself only ever closes (`SweepOnlyCloses`).

## Model

| member | source | states |
|---|---|---|
| AuctionRepository.UnixSeconds | internal/infra/database/auction/create_auction.go:53 | the stored second `s` is the unique one with `s * 10^9 <= nanos < (s + 1) * 10^9`, i.e. the instant rounded down to a whole Unix second |
| AuctionRepository.ToMongo | internal/infra/database/auction/create_auction.go:46-54 | the stored document has the auction's id, product name, category, description, condition and status unchanged, and its timestamp is the auction's instant rounded down to a whole Unix second |
| AuctionRepository.CreateAuction | internal/infra/database/auction/create_auction.go:43-62 | on success the document under the auction's id has the same id, product name, category, description, condition and status as the input, its timestamp is the input instant in whole seconds, no other document changes and no error is reported; on insert failure nothing changes and the internal error "Error trying to insert auction" is returned |
| AuctionRepository.UpdateAuctionStatus | internal/infra/database/auction/create_auction.go:64-82 | on success the document with that id gets the given status, whatever its status was; every other field of every document and every other document is unchanged; a missing id changes nothing without error; on driver failure nothing changes and "Error trying to update auction status" is returned |
| AuctionRepository.Getenv | internal/infra/database/auction/create_auction.go:129 | an unset variable reads as the empty string, and a set variable reads as its value |
| AuctionRepository.GetAuctionInterval | internal/infra/database/auction/create_auction.go:128-136 | a successfully parsed `AUCTION_INTERVAL` is returned unchanged (zero and negative included); any parse failure, including an unset variable read as the empty string, gives exactly five minutes |
| AuctionClosing.Cutoff | internal/infra/database/auction/create_auction.go:102 | the cutoff `c` satisfies `c * 10^9 <= now - interval < (c + 1) * 10^9`: the moment `now - interval` in whole Unix seconds |
| AuctionClosing.Expired | internal/infra/database/auction/create_auction.go:99-104 | the find filter: a Completed document is never selected, nor one stamped at the cutoff second or later; an Active document stamped strictly before the cutoff is |
| AuctionClosing.FindExpired | internal/infra/database/auction/create_auction.go:99-106 | the find step returns exactly the stored documents with status Active and timestamp strictly below the cutoff |
| AuctionClosing.Sweep | internal/infra/database/auction/create_auction.go:96-126 | after a sweep whose find succeeds, every Active document stamped strictly before the cutoff whose update is not rejected has status Completed and is reported closed; every other document (not Active, at or after the cutoff, or rejected) is unchanged in every field; a failed find or decode changes nothing and closes nothing; no id is added or removed |
| AuctionClosing.FoundIdsAreExpiredIds | internal/infra/database/auction/create_auction.go:113-120 | the ids of the decoded documents are exactly the ids of the expired documents, so updating by `auction.Id` reaches each of them |
| AuctionClosing.CloseEach | internal/infra/database/auction/create_auction.go:119-125 | the per-record loop as a fold: closing the ids of a sequence one at a time through the status update, skipping rejected ones, keeps the set of ids (what it closes is stated by `CloseEachIsCloseAll`) |
| AuctionClosing.CloseAllStep | internal/infra/database/auction/create_auction.go:119-120 | one more status update to Completed extends the set of closed ids by that id (or changes nothing when the driver rejects it) |
| AuctionClosing.VisitOne | internal/infra/database/auction/create_auction.go:119-125 | one iteration of the per-record loop keeps the loop state equal to the sweep restricted to the ids visited so far, with the closed ids those visited and not rejected |
| AuctionClosing.CloseExpired | internal/infra/database/auction/create_auction.go:113-125 | visiting the decoded documents in an arbitrary order and closing each through the status update ends with every expired document outside the rejected set closed, nothing else changed, and exactly those ids reported closed |
| AuctionClosing.CheckAndCloseExpiredAuctions | internal/infra/database/auction/create_auction.go:96-126 | the sweep as written, including its early returns on find and decode errors, produces exactly the collection and closed ids of `Sweep` |
| ClosingProperties.CloseNothing | internal/infra/database/auction/create_auction.go:119 | closing the empty id set is the identity: the loop's starting state, and what a loop over no documents leaves |
| ClosingProperties.CloseAllAfterUpdate | internal/infra/database/auction/create_auction.go:119-120 | closing one id through the status update and then a set of ids is the same as closing their union |
| ClosingProperties.CloseEachIsCloseAll | internal/infra/database/auction/create_auction.go:119-125 | running the per-record updates one at a time over any sequence of ids equals closing the set of those ids at once, outside the rejected ones |
| ClosingProperties.SweepInAnyOrder | internal/infra/database/auction/create_auction.go:113-125 | whatever order the cursor yields the expired documents in, the per-record loop ends in the collection `Sweep` describes |
| ClosingProperties.SweepOnlyCloses | internal/infra/database/auction/create_auction.go:119-120 | a sweep changes at most the status field, never turns a Completed auction back to Active, and changes a document only when it was Active and stamped strictly before the cutoff |
| ClosingProperties.CutoffIsExclusive | internal/infra/database/auction/create_auction.go:101-102 | an auction whose timestamp equals the cutoff is neither changed nor reported closed (the comparison is strict) |
| ClosingProperties.SweepIdempotent | internal/infra/database/auction/create_auction.go:99-125 | at a fixed `now`, a sweep following a fully successful sweep changes nothing and closes nothing |
| ClosingProperties.NothingEligibleNothingChanges | internal/infra/database/auction/create_auction.go:106-125 | when no document is Active and older than the cutoff, a sweep changes nothing and closes nothing |
| ClosingProperties.NextSweepRetries | internal/infra/database/auction/create_auction.go:119-125 | a rejected update is not retried within a sweep, but a following fully successful sweep at the same `now` yields the collection an unfailing first sweep would have |
| ClosingProperties.FailureIsIsolated | internal/infra/database/auction/create_auction.go:119-125 | a rejected update of some documents does not change what the sweep does to any document outside the rejected set |
| ClosingProperties.ExpiredGrowsWithNow | internal/infra/database/auction/create_auction.go:99-104 | a later tick selects every auction an earlier tick would have selected (the selection only grows with `now`) |
| ClosingProperties.ExpiredShrinksWithWindow | internal/infra/database/auction/create_auction.go:99-104 | a longer window selects only auctions a shorter window would also select |
| ClosingProperties.InterleavedWriteIsOverwritten | internal/infra/database/auction/create_auction.go:106-120 | because the find runs outside the lock and the update matches on `_id` alone, an auction the find selected is set to Completed even if another writer changed its status in between (reopened it, say) |
| ClosingProperties.DefaultWindowCutoff | internal/infra/database/auction/create_auction.go:128-136 | with the five-minute default window the cutoff is exactly 300 seconds before `now`'s second |
| ClosingProperties.IntervalFromEnvironment | internal/infra/database/auction/create_auction.go:128-136 | the sweep's cutoff uses a set and parsable `AUCTION_INTERVAL` as given, and with the variable unset it lies exactly 300 seconds before `now`'s second |
| ClosingProperties.StaleAuctionCloses | internal/infra/database/auction/create_auction.go:99-104 | with the default window, an Active auction stamped more than 300 seconds before `now` (six minutes old, say) is closed and reported closed unless its update is rejected |
| ClosingProperties.FreshAuctionStays | internal/infra/database/auction/create_auction.go:99-104 | with a non-negative window, an auction stamped at `now`'s second or later is unchanged by a sweep |
| ClosingProperties.NegativeWindowClosesFresh | internal/infra/database/auction/create_auction.go:128-136 | the window is not validated: a window of minus one second or less closes even an Active auction stamped at `now`'s second |
| ClosingProperties.UpdateReopens | internal/infra/database/auction/create_auction.go:72-75 | the status update is unguarded: a Completed auction set to Active becomes Active |
| ClosingProperties.UpdateTwiceIsOnce | internal/infra/database/auction/create_auction.go:64-82 | repeating a successful status update with the same status changes nothing and reports no error |
| ClosingProperties.CreateDropsSubSecond | internal/infra/database/auction/create_auction.go:53 | two auctions that differ only within the same second are stored identically |

## Left out

- `NewAuctionRepository` (lines 31-41): it only binds the collection, resolves the window once and starts the background job; the collection is the `Store` argument and the window the `interval` argument of every sweep.
- `startAuctionClosingRoutine` (lines 84-94): the 30-second ticker and the goroutine are scheduling; the model describes one sweep, not the perpetual loop.
- The mutex of `UpdateAuctionStatus` (lines 69-70) and concurrent callers: the model runs one operation at a time, so a sweep's find (lines 106-117, outside the lock) and its updates see the same collection. In the program another caller's status write can land between the two; since the update at lines 72-73 matches on `_id` alone and not on status, such a write is overwritten with Completed (an auction reopened in that gap is closed anyway). `InterleavedWriteIsOverwritten` states this consequence for an explicitly given intermediate collection; the sweep members themselves assume no write in between.
- Logging and `context.Context`: they have no effect on the collection. The one logged outcome the model keeps is the set of ids a sweep logs as closed automatically (line 123), the `closed` field of `AuctionClosing.SweepResult`; the error log lines are not modelled.
- `time.Now`, `time.Time.Unix` and `time.ParseDuration`: the clock reading and the entity instant are integer nanosecond parameters, and the parser is a function parameter whose outcome is an `Option`.
- The MongoDB driver: insert, update, find and cursor decoding are map operations; their failures are flags, and a failed write is modelled as writing nothing.
- Duplicate ids on insert: rejecting them is the collection's unique index, not this code; the model writes under the id whenever the insert flag reports success.
- AuctionClosing.Cutoff: does not model 64-bit overflow of `-interval` or the saturation of `time.Time.Add`; integers are unbounded, so the cutoff is exact for every input.
- AuctionRepository.UnixSeconds: does not model the 64-bit range of the stored timestamp.
- The `auction_entity` and `internal_error` packages are not part of this model; the status (Active, Completed) and condition (New, Used, Refurbished) enumerations and the single internal-server-error kind carrying a message are taken from their documented meaning.

=== FILE: auction_closing.dfy ===
/**
  The expiration sweep: one run of the periodic job that closes every active
  auction whose active window has lapsed.

  `now` and `interval` are integer nanoseconds (the clock reading and the
  resolved active window). The cutoff is `now - interval` in whole Unix
  seconds, and a document is expired when it is Active and its timestamp is
  strictly below the cutoff. Driver failures are inputs: `find` says whether
  the find and decode steps succeeded, and `failing` holds the ids whose
  status update the driver rejects.
 */
module AuctionClosing {
  import opened AuctionEntity
  import opened AuctionRepository

  /** Outcome of the find-and-decode step of a sweep. */
  datatype FindOutcome = Found | FindError | DecodeError

  /**
    The collection after a sweep, and the ids the sweep logs as closed
    automatically (those whose update the driver accepted).
   */
  datatype SweepResult = SweepResult(store: Store, closed: set<string>)

  /** The cutoff of a sweep: `now - interval` in whole Unix seconds. */
  function Cutoff(now: int, interval: int): (c: int)
    ensures c * NanosPerSecond <= now - interval < (c + 1) * NanosPerSecond
  {
    UnixSeconds(now - interval)
  }

  /**
    The find filter: status Active and timestamp strictly below the cutoff.
    A completed document is never selected, nor one stamped at the cutoff
    second or later.
   */
  function Expired(d: AuctionEntityMongo, cutoff: int): (selected: bool)
    ensures d.status == Completed ==> !selected
    ensures d.timestamp >= cutoff ==> !selected
    ensures d.status == Active && d.timestamp < cutoff ==> selected
  {
    d.status == Active && d.timestamp < cutoff
  }

  /** The documents the find step returns. */
  function FindExpired(store: Store, cutoff: int): (found: set<AuctionEntityMongo>)
    ensures forall d | d in found :: d.id in store && store[d.id] == d && Expired(d, cutoff)
    ensures forall k | k in store && Expired(store[k], cutoff) :: store[k] in found
  {
    set k | k in store && Expired(store[k], cutoff) :: store[k]
  }

  /** The ids of the documents the find step returns. */
  function ExpiredIds(store: Store, cutoff: int): set<string> {
    set k | k in store && Expired(store[k], cutoff)
  }

  /**
    The collection once every id of `ids` outside `failing` has been set to
    Completed; every other document is left as it was.
   */
  function CloseAll(store: Store, ids: set<string>, failing: set<string>): Store {
    map k | k in store :: if k in ids && k !in failing then store[k].(status := Completed) else store[k]
  }

  /** What one sweep does, stated over the whole collection at once. */
  function Sweep(store: Store, now: int, interval: int, find: FindOutcome, failing: set<string>): (r: SweepResult)
    ensures r.store.Keys == store.Keys
    ensures find != Found ==> r.store == store && r.closed == {}
    ensures find == Found ==>
      forall k | k in store && Expired(store[k], Cutoff(now, interval)) && k !in failing ::
        r.store[k] == store[k].(status := Completed)
    ensures forall k | k in store && (find != Found || !Expired(store[k], Cutoff(now, interval)) || k in failing) ::
      r.store[k] == store[k]
    ensures forall k :: k in r.closed <==>
      find == Found && k in store && Expired(store[k], Cutoff(now, interval)) && k !in failing
  {
    if find != Found then SweepResult(store, {})
    else
      var ids := ExpiredIds(store, Cutoff(now, interval));
      SweepResult(CloseAll(store, ids, failing), ids - failing)
  }

  /**
    The per-record loop as a fold: closes the ids of `order` one at a time,
    in that order, through the status-update operation. A rejected update is
    skipped and the fold carries on.
   */
  function CloseEach(store: Store, order: seq<string>, failing: set<string>): (r: Store)
    ensures r.Keys == store.Keys
    decreases |order|
  {
    if order == [] then store
    else
      var w := UpdateAuctionStatus(store, order[0], Completed, order[0] !in failing);
      CloseEach(w.store, order[1..], failing)
  }

  /** Closing one more id extends the closed set by that id. */
  lemma CloseAllStep(store: Store, done: set<string>, id: string, failing: set<string>)
    ensures UpdateAuctionStatus(CloseAll(store, done, failing), id, Completed, id !in failing).store
         == CloseAll(store, done + {id}, failing)
  {
  }

  /** The ids of the found documents are exactly the expired ids. */
  lemma FoundIdsAreExpiredIds(store: Store, cutoff: int)
    ensures (set d | d in FindExpired(store, cutoff) :: d.id) == ExpiredIds(store, cutoff)
  {
  }

  /**
    The state of the per-record loop once the ids of `expiredIds` outside
    `pending` have been visited: exactly those have been closed, except the
    ones whose update the driver rejects.
   */
  ghost predicate Visited(store: Store, expiredIds: set<string>, pending: set<string>, failing: set<string>,
                          after: Store, closed: set<string>)
  {
    && pending <= expiredIds
    && after == CloseAll(store, expiredIds - pending, failing)
    && closed == (expiredIds - pending) - failing
  }

  /** Visiting one pending id, as the loop body does, keeps `Visited`. */
  lemma VisitOne(store: Store, expiredIds: set<string>, pending: set<string>, failing: set<string>,
                 after: Store, closed: set<string>, auctionId: string)
    requires Visited(store, expiredIds, pending, failing, after, closed)
    requires auctionId in pending && auctionId in store
    ensures
      var w := UpdateAuctionStatus(after, auctionId, Completed, auctionId !in failing);
      Visited(store, expiredIds, pending - {auctionId}, failing,
              w.store, if w.err.None? then closed + {auctionId} else closed)
  {
    var visited := expiredIds - pending;
    CloseAllStep(store, visited, auctionId, failing);
    assert visited + {auctionId} == expiredIds - (pending - {auctionId});
  }

  /**
    The per-record loop of a sweep over the documents the find step
    returned. Their ids are visited in an arbitrary order (the cursor's),
    and each is closed through `UpdateAuctionStatus`; a rejected update is
    logged and skipped, and the loop carries on.
   */
  method CloseExpired(store: Store, cutoff: int, failing: set<string>)
    returns (after: Store, closed: set<string>)
    ensures after == CloseAll(store, ExpiredIds(store, cutoff), failing)
    ensures closed == ExpiredIds(store, cutoff) - failing
  {
    var expiredAuctions := FindExpired(store, cutoff);
    var pending := set d | d in expiredAuctions :: d.id;
    FoundIdsAreExpiredIds(store, cutoff);
    ghost var expiredIds := ExpiredIds(store, cutoff);
    after, closed := store, {};
    assert expiredIds - pending == {};
    while pending != {}
      invariant Visited(store, expiredIds, pending, failing, after, closed)
      decreases pending
    {
      var auctionId :| auctionId in pending;
      VisitOne(store, expiredIds, pending, failing, after, closed, auctionId);
      var w := UpdateAuctionStatus(after, auctionId, Completed, auctionId !in failing);
      after := w.store;
      if w.err.None? {
        closed := closed + {auctionId};
      }
      pending := pending - {auctionId};
    }
    assert expiredIds - pending == expiredIds;
  }

  /**
    One sweep: nothing changes when the find or decode step fails;
    otherwise every expired document is visited once.
   */
  method CheckAndCloseExpiredAuctions(store: Store, now: int, interval: int, find: FindOutcome, failing: set<string>)
    returns (after: Store, closed: set<string>)
    ensures SweepResult(after, closed) == Sweep(store, now, interval, find, failing)
  {
    if find != Found {
      return store, {};
    }
    after, closed := CloseExpired(store, Cutoff(now, interval), failing);
  }
}

=== FILE: auction_entity.dfy ===
/**
  The domain types the repository receives from the rest of the application:
  the auction status and product-condition enumerations and the in-memory
  auction record.
 */
module AuctionEntity {

  /** Lifecycle status of an auction. */
  datatype AuctionStatus = Active | Completed

  /** Condition classifier of the product being auctioned. */
  datatype ProductCondition = New | Used | Refurbished

  /**
    The domain auction. Its timestamp is a point in time, represented here as
    integer nanoseconds since the Unix epoch (UTC).
   */
  datatype Auction = Auction(
    id: string,
    productName: string,
    category: string,
    description: string,
    condition: ProductCondition,
    status: AuctionStatus,
    timestampNanos: int
  )
}

=== FILE: auction_repository.dfy ===
/**
  The persistence side of the auction repository: the stored record shape,
  the collection as a finite map keyed by the record's `_id`, and the
  create, status-update and interval-resolution operations.

  Driver calls are replaced by operations on the map; whether the driver
  reports an error is an input flag, because it depends on a database this
  model does not see.
 */
module AuctionRepository {
  import opened Wrappers
  import opened AuctionEntity
  import opened InternalErrors

  const NanosPerSecond: int := 1_000_000_000
  const NanosPerMinute: int := 60 * NanosPerSecond

  /** The fallback active window: five minutes, in nanoseconds. */
  const DefaultAuctionInterval: int := 5 * NanosPerMinute

  /** Name of the environment variable holding the active window. */
  const AuctionIntervalVariable: string := "AUCTION_INTERVAL"

  const InsertErrorMessage: string := "Error trying to insert auction"
  const UpdateErrorMessage: string := "Error trying to update auction status"

  /** The stored auction document; `timestamp` is in whole Unix seconds. */
  datatype AuctionEntityMongo = AuctionEntityMongo(
    id: string,
    productName: string,
    category: string,
    description: string,
    condition: ProductCondition,
    status: AuctionStatus,
    timestamp: int
  )

  /** Every document sits under its own `_id`. */
  predicate KeyedById(m: map<string, AuctionEntityMongo>) {
    forall k | k in m :: m[k].id == k
  }

  /** The `auctions` collection. */
  type Store = m: map<string, AuctionEntityMongo> | KeyedById(m) witness map[]

  /** The collection after a write, and the error the write reported, if any. */
  datatype Written = Written(store: Store, err: Option<InternalError>)

  /**
    Whole seconds since the epoch of an instant given in nanoseconds, rounded
    towards negative infinity as `time.Time.Unix` does.
   */
  function UnixSeconds(nanos: int): (s: int)
    ensures s * NanosPerSecond <= nanos < (s + 1) * NanosPerSecond
  {
    nanos / NanosPerSecond
  }

  /** Maps a domain auction to its stored document. */
  function ToMongo(e: Auction): (d: AuctionEntityMongo)
    ensures d.id == e.id && d.productName == e.productName && d.category == e.category
    ensures d.description == e.description && d.condition == e.condition && d.status == e.status
    ensures d.timestamp * NanosPerSecond <= e.timestampNanos < (d.timestamp + 1) * NanosPerSecond
  {
    AuctionEntityMongo(e.id, e.productName, e.category, e.description,
                       e.condition, e.status, UnixSeconds(e.timestampNanos))
  }

  /**
    Inserts the document for `e`. `inserted` is the driver's verdict on the
    insert; when it reports failure nothing is written and an internal
    error is returned.
   */
  function CreateAuction(store: Store, e: Auction, inserted: bool): (w: Written)
    ensures !inserted ==> w.store == store
    ensures !inserted ==> w.err == Some(InternalServerError(InsertErrorMessage))
    ensures inserted ==> w.err == None
    ensures inserted ==> w.store.Keys == store.Keys + {e.id}
    ensures inserted ==>
      var d := w.store[e.id];
      && d.id == e.id && d.productName == e.productName
      && d.category == e.category && d.description == e.description
      && d.condition == e.condition && d.status == e.status
      && d.timestamp * NanosPerSecond <= e.timestampNanos < (d.timestamp + 1) * NanosPerSecond
    ensures inserted ==> forall k | k in store && k != e.id :: w.store[k] == store[k]
  {
    if inserted then Written(store[e.id := ToMongo(e)], None)
    else Written(store, Some(InternalServerError(InsertErrorMessage)))
  }

  /**
    Sets the status field of the document whose `_id` is `auctionId`.
    No document with that id means zero documents matched, which is not an
    error. `updated` is the driver's verdict on the update.
   */
  function UpdateAuctionStatus(store: Store, auctionId: string, status: AuctionStatus, updated: bool): (w: Written)
    ensures !updated ==> w.store == store
    ensures !updated ==> w.err == Some(InternalServerError(UpdateErrorMessage))
    ensures updated ==> w.err == None
    ensures w.store.Keys == store.Keys
    ensures updated && auctionId in store ==> w.store[auctionId].status == status
    ensures forall k | k in store :: w.store[k] == store[k].(status := w.store[k].status)
    ensures forall k | k in store && k != auctionId :: w.store[k] == store[k]
  {
    if !updated then Written(store, Some(InternalServerError(UpdateErrorMessage)))
    else if auctionId in store then Written(store[auctionId := store[auctionId].(status := status)], None)
    else Written(store, None)
  }

  /** The environment lookup: an unset variable reads as the empty string. */
  function Getenv(env: map<string, string>, name: string): (v: string)
    ensures name !in env ==> v == ""
    ensures name in env ==> v == env[name]
  {
    if name in env then env[name] else ""
  }

  /**
    The active window in nanoseconds. `parseDuration` stands for the
    duration parser: None is a parse error, Some(d) a parsed duration.
   */
  function GetAuctionInterval(env: map<string, string>, parseDuration: string -> Option<int>): (d: int)
    ensures parseDuration(Getenv(env, AuctionIntervalVariable)).Some? ==>
      d == parseDuration(Getenv(env, AuctionIntervalVariable)).value
    ensures parseDuration(Getenv(env, AuctionIntervalVariable)).None? ==>
      d == 5 * 60 * 1_000_000_000
    ensures AuctionIntervalVariable !in env && parseDuration("").None? ==>
      d == 5 * 60 * 1_000_000_000
  {
    match parseDuration(Getenv(env, AuctionIntervalVariable))
    case Some(duration) => duration
    case None => DefaultAuctionInterval
  }
}

=== FILE: closing_properties.dfy ===
/**
  Properties of the auction lifecycle that relate several operations: the
  order independence of the per-record loop, idempotence and retry of
  sweeps, the cutoff boundary, the default window, and the unguarded status
  update.
 */
module ClosingProperties {
  import opened AuctionEntity
  import opened AuctionRepository
  import opened AuctionClosing
  import opened Wrappers

  /** The ids a sequence enumerates. */
  function Elements(order: seq<string>): set<string> {
    set k | k in order
  }

  /** Closing no ids leaves the collection as it was. */
  lemma CloseNothing(store: Store, failing: set<string>)
    ensures CloseAll(store, {}, failing) == store
  {
  }

  /** Closing one id through the status update, then a set of ids, closes their union. */
  lemma CloseAllAfterUpdate(store: Store, id: string, ids: set<string>, failing: set<string>)
    ensures CloseAll(UpdateAuctionStatus(store, id, Completed, id !in failing).store, ids, failing)
         == CloseAll(store, ids + {id}, failing)
  {
  }

  /**
    The per-record loop, run over the ids in any order (repetitions and ids
    absent from the collection included), closes exactly the set of those
    ids outside `failing`.
   */
  lemma {:induction false} CloseEachIsCloseAll(store: Store, order: seq<string>, failing: set<string>)
    ensures CloseEach(store, order, failing) == CloseAll(store, Elements(order), failing)
    decreases |order|
  {
    if order == [] {
      assert Elements(order) == {};
      CloseNothing(store, failing);
    } else {
      var id := order[0];
      var rest := order[1..];
      var mid := UpdateAuctionStatus(store, id, Completed, id !in failing).store;
      CloseEachIsCloseAll(mid, rest, failing);
      CloseAllAfterUpdate(store, id, Elements(rest), failing);
      assert Elements(rest) + {id} == Elements(order);
    }
  }

  /**
    Whatever order the cursor hands the expired documents in, the loop ends
    in the same collection as the sweep specification.
   */
  lemma SweepInAnyOrder(store: Store, now: int, interval: int, failing: set<string>, order: seq<string>)
    requires Elements(order) == ExpiredIds(store, Cutoff(now, interval))
    ensures CloseEach(store, order, failing) == Sweep(store, now, interval, Found, failing).store
  {
    CloseEachIsCloseAll(store, order, failing);
  }

  /**
    A sweep changes at most the status field, never reopens an auction, and
    changes only documents that were expired.
   */
  lemma SweepOnlyCloses(store: Store, now: int, interval: int, find: FindOutcome, failing: set<string>)
    ensures var after := Sweep(store, now, interval, find, failing).store;
      forall k | k in store ::
        && after[k] == store[k].(status := after[k].status)
        && (store[k].status == Completed ==> after[k].status == Completed)
        && (after[k] != store[k] ==> Expired(store[k], Cutoff(now, interval)))
  {
  }

  /** An auction stamped exactly at the cutoff second is not closed. */
  lemma CutoffIsExclusive(store: Store, now: int, interval: int, find: FindOutcome, failing: set<string>, k: string)
    requires k in store && store[k].timestamp == Cutoff(now, interval)
    ensures Sweep(store, now, interval, find, failing).store[k] == store[k]
    ensures k !in Sweep(store, now, interval, find, failing).closed
  {
  }

  /** At a fixed `now`, a sweep after a fully successful one changes nothing. */
  lemma SweepIdempotent(store: Store, now: int, interval: int, find: FindOutcome, failing: set<string>)
    ensures var first := Sweep(store, now, interval, Found, {}).store;
      Sweep(first, now, interval, find, failing) == SweepResult(first, {})
  {
  }

  /** A sweep with nothing eligible changes nothing and closes nothing. */
  lemma NothingEligibleNothingChanges(store: Store, now: int, interval: int, find: FindOutcome, failing: set<string>)
    requires forall k | k in store :: !Expired(store[k], Cutoff(now, interval))
    ensures Sweep(store, now, interval, find, failing) == SweepResult(store, {})
  {
  }

  /**
    A failed update is not retried within the sweep, but the next sweep at
    the same `now` re-selects the record: once it succeeds everywhere, the
    collection is as if the first sweep had not failed at all.
   */
  lemma NextSweepRetries(store: Store, now: int, interval: int, failing: set<string>)
    ensures var first := Sweep(store, now, interval, Found, failing).store;
      Sweep(first, now, interval, Found, {}).store == Sweep(store, now, interval, Found, {}).store
  {
  }

  /** A rejected update of one auction does not change the fate of any other. */
  lemma FailureIsIsolated(store: Store, now: int, interval: int, failing: set<string>, k: string)
    requires k in store && k !in failing
    ensures Sweep(store, now, interval, Found, failing).store[k] == Sweep(store, now, interval, Found, {}).store[k]
  {
  }

  /** A later tick selects every auction an earlier one would have, and possibly more. */
  lemma ExpiredGrowsWithNow(store: Store, now: int, now': int, interval: int)
    requires now <= now'
    ensures ExpiredIds(store, Cutoff(now, interval)) <= ExpiredIds(store, Cutoff(now', interval))
  {
  }

  /** A longer window selects no auction a shorter one would not. */
  lemma ExpiredShrinksWithWindow(store: Store, now: int, interval: int, interval': int)
    requires interval <= interval'
    ensures ExpiredIds(store, Cutoff(now, interval')) <= ExpiredIds(store, Cutoff(now, interval))
  {
  }

  /**
    The find step and the per-record updates are not one atomic step, and
    the update matches on `_id` alone. So when another writer changes a
    found auction between the two (reopening it, say), the sweep still sets
    it to Completed: the loop, run on the collection as it is by then,
    closes every id the earlier find selected, whatever its status now.
   */
  lemma InterleavedWriteIsOverwritten(found: Store, current: Store, cutoff: int, failing: set<string>,
                                      order: seq<string>, k: string)
    requires Elements(order) == ExpiredIds(found, cutoff)
    requires k in found && Expired(found[k], cutoff) && k !in failing
    requires k in current
    ensures CloseEach(current, order, failing)[k] == current[k].(status := Completed)
  {
    CloseEachIsCloseAll(current, order, failing);
  }

  /** With the default five-minute window, the cutoff is exactly 300 seconds before `now`. */
  lemma DefaultWindowCutoff(now: int)
    ensures Cutoff(now, DefaultAuctionInterval) == UnixSeconds(now) - 300
  {
  }

  /**
    The window a sweep uses comes from the environment: a set and parsable
    `AUCTION_INTERVAL` is used as is, and an unset one (the empty string
    failing to parse) puts the cutoff 300 seconds before `now`.
   */
  lemma IntervalFromEnvironment(env: map<string, string>, parseDuration: string -> Option<int>, now: int)
    ensures AuctionIntervalVariable in env && parseDuration(env[AuctionIntervalVariable]).Some? ==>
      Cutoff(now, GetAuctionInterval(env, parseDuration))
        == Cutoff(now, parseDuration(env[AuctionIntervalVariable]).value)
    ensures AuctionIntervalVariable !in env && parseDuration("").None? ==>
      Cutoff(now, GetAuctionInterval(env, parseDuration)) == UnixSeconds(now) - 300
  {
  }

  /**
    With the default window, an active auction stamped more than five
    minutes ago (six minutes, say) is closed by the next successful sweep.
   */
  lemma StaleAuctionCloses(store: Store, now: int, failing: set<string>, k: string)
    requires k in store && k !in failing
    requires store[k].status == Active && store[k].timestamp < UnixSeconds(now) - 300
    ensures Sweep(store, now, DefaultAuctionInterval, Found, failing).store[k].status == Completed
    ensures k in Sweep(store, now, DefaultAuctionInterval, Found, failing).closed
  {
  }

  /**
    With a non-negative window, an auction stamped at the current second
    (or later) is left untouched by a sweep.
   */
  lemma FreshAuctionStays(store: Store, now: int, interval: int, find: FindOutcome, failing: set<string>, k: string)
    requires interval >= 0
    requires k in store && store[k].timestamp >= UnixSeconds(now)
    ensures Sweep(store, now, interval, find, failing).store[k] == store[k]
  {
  }

  /**
    The window is not validated: a negative window of a second or more
    puts the cutoff in the future, so even an auction stamped at the
    current second is closed.
   */
  lemma NegativeWindowClosesFresh(store: Store, now: int, interval: int, failing: set<string>, k: string)
    requires interval <= -NanosPerSecond
    requires k in store && k !in failing
    requires store[k].status == Active && store[k].timestamp == UnixSeconds(now)
    ensures Sweep(store, now, interval, Found, failing).store[k].status == Completed
  {
  }

  /**
    The status update is unguarded: it reopens a completed auction just as
    readily as it closes an active one.
   */
  lemma UpdateReopens(store: Store, auctionId: string)
    requires auctionId in store && store[auctionId].status == Completed
    ensures UpdateAuctionStatus(store, auctionId, Active, true).store[auctionId].status == Active
  {
  }

  /** Repeating a successful status update changes nothing and reports no error. */
  lemma UpdateTwiceIsOnce(store: Store, auctionId: string, status: AuctionStatus)
    ensures var once := UpdateAuctionStatus(store, auctionId, status, true).store;
      UpdateAuctionStatus(once, auctionId, status, true) == Written(once, None)
  {
  }

  /** Sub-second precision is lost: instants within the same second are stored alike. */
  lemma CreateDropsSubSecond(store: Store, e: Auction, e': Auction)
    requires e' == e.(timestampNanos := e'.timestampNanos)
    requires UnixSeconds(e.timestampNanos) == UnixSeconds(e'.timestampNanos)
    ensures CreateAuction(store, e, true) == CreateAuction(store, e', true)
  {
  }
}

=== FILE: internal_error.dfy ===
/** The application's single error kind for back-end failures. */
module InternalErrors {

  datatype InternalError = InternalServerError(message: string)
}

=== FILE: wrappers.dfy ===
/** The optional-value type used for parse outcomes and reported errors. */
module Wrappers {

  /** A value that may be absent. */
  datatype Option<+T> = None | Some(value: T)
}
